=== FILE: README.md ===
# Account search filter cache, in Dafny

A model of the `accountSearch` Lightning web component
(`force-app/main/default/lwc/accountSearch/accountSearch.js`): a grid of
accounts filtered by account type, whose fetched views are cached per filter
label so that, after a save, only the views holding an edited record are
refreshed.

The component is modelled as an immutable `State` record and pure transition
functions, one per handler of the component:

- `OrderedMap` (`ordered_map.dfy`): a JavaScript `Map` as an association list
  with insertion-order iteration, in-place replacement on `set` of a present
  key and append on `set` of a new key.
- `Labels` (`labels.dfy`): the type picker's options and the label encoding
  (spaces to `_` in option values, `_` back to spaces on selection).
- `AccountSearch` (`account_search.dfy`): the component state (`cacheMap`,
  `cacheRef`, `updatedIDs`, the selected label, the picker options and the
  grid data), the handlers `accTypes`, `wiredAccounts`, `handleTypeChange`,
  `handleSave`, and the invalidation resolver `refresh`, plus `Run`, which
  applies a sequence of events.
- `CacheProperties` (`cache_properties.dfy`): lemmas that relate several
  operations: what a refresh selects after fetches and saves, re-fetch
  replacement and idempotence, cache alignment over any run, and a two-view
  scenario.

Platform calls are abstracted: a wire delivery is an explicit
`AccountsResult`/`TypesResult` argument; the wire result value itself is the
handle stored in `cacheRef`; `refresh` returns the list of keys it computed
and the handle it would pass to `refreshApex` for each, and changes no state.

Behaviour worth spelling out:

- The refresh key list has one entry per cached label, with `null` (`None`)
  for labels that are not stale, and `refreshApex` is called for every entry,
  with `undefined` for the `null` ones. A save with no edited Ids still calls
  `refreshApex` once per cached label.
- `updatedIDs` is an ordered list of draft Ids, possibly with repeats; it is
  recorded when the save starts, before any update is confirmed.
- A view fetched with no records is never refreshed by a save, because no Id
  of it can be among the edited ones (`EmptyViewIsNeverRefreshed`).
- `refresh` with `updatedIDs` still `undefined` raises a TypeError as soon as
  it meets a non-empty cached Id list; with every list empty it yields only
  `null` keys.

## Model

| member | source | states |
|---|---|---|
| OrderedMap.IndexOf | force-app/main/default/lwc/accountSearch/accountSearch.js:57-62 | the position found holds the key and is the first such; no position means the key is absent |
| OrderedMap.Get | force-app/main/default/lwc/accountSearch/accountSearch.js:120 | `get` yields a value exactly when the key is present, and in a duplicate-free map it is the value stored with that key |
| OrderedMap.Set | force-app/main/default/lwc/accountSearch/accountSearch.js:57-62 | `set` on a present key keeps the key order, on a new key appends it; other entries keep their place and value; `get` of the key yields the new value; keys stay distinct |
| OrderedMap.SetOverwrites | force-app/main/default/lwc/accountSearch/accountSearch.js:57-62 | a second `set` under the same key leaves no trace of the first |
| OrderedMap.SameKeysSameHas | force-app/main/default/lwc/accountSearch/accountSearch.js:57-62 | two maps with the same key order hold the same keys |
| Labels.ReplaceAll | force-app/main/default/lwc/accountSearch/accountSearch.js:40 | a global single-character replace keeps the length and changes exactly the matching characters |
| Labels.Encode | force-app/main/default/lwc/accountSearch/accountSearch.js:40 | an option value has the label's length, holds `_` wherever the label has a space and agrees with the label elsewhere, so it has no space |
| Labels.Decode | force-app/main/default/lwc/accountSearch/accountSearch.js:68 | a selected label has the value's length, holds a space wherever the value has `_` and agrees with the value elsewhere, so it has no `_`; it is empty for the empty value |
| Labels.DecodeEncode | force-app/main/default/lwc/accountSearch/accountSearch.js:40-68 | decoding (line 68) the option value (line 40) of a label without `_` gives the label back |
| Labels.EncodeDecode | force-app/main/default/lwc/accountSearch/accountSearch.js:40-68 | encoding (line 40) the label selected (line 68) by a value without spaces gives the value back |
| Labels.DecodeWithoutUnderscore | force-app/main/default/lwc/accountSearch/accountSearch.js:68 | a value without `_` selects itself as label |
| Labels.UnderscoreLabelIsNotRecovered | force-app/main/default/lwc/accountSearch/accountSearch.js:68 | the encoding is not injective: `A_B` and `A B` share a value, which selects `A B` |
| Labels.BuildOptions | force-app/main/default/lwc/accountSearch/accountSearch.js:39-42 | the picker starts with `All Types` / `''`, then one option per type label, in order, whose value is that label encoded |
| Labels.PickingAnOptionSelectsItsType | force-app/main/default/lwc/accountSearch/accountSearch.js:39-42 | picking option i selects every type for i = 0 and type i-1 otherwise, when no type contains `_` |
| AccountSearch.Init | force-app/main/default/lwc/accountSearch/accountSearch.js:20-33 | the constructed component has the empty label, no options, grid data or saved Ids, and two empty caches, which are aligned |
| AccountSearch.SameKeysAlignHas | force-app/main/default/lwc/accountSearch/accountSearch.js:56-63 | in aligned caches a label is in `cacheMap` exactly when it is in `cacheRef` |
| AccountSearch.AlignedHandles | force-app/main/default/lwc/accountSearch/accountSearch.js:116-120 | in aligned caches `cacheRef.get` of the i-th `cacheMap` key is the i-th stored handle |
| AccountSearch.AccTypes | force-app/main/default/lwc/accountSearch/accountSearch.js:36-48 | data builds the option list, an error alone clears it, neither changes nothing; the grid data, the caches, the label and `updatedIDs` are untouched |
| AccountSearch.WiredAccounts | force-app/main/default/lwc/accountSearch/accountSearch.js:51-64 | the result always becomes the grid data; with data the label's Id list is the records' Ids in order and its handle is the result, every other label is unchanged, a present label keeps its place and a new one is appended; without data both caches are unchanged; alignment is preserved |
| AccountSearch.HandleTypeChange | force-app/main/default/lwc/accountSearch/accountSearch.js:66-70 | the selected label is the decoded option value, `''` for an empty value; nothing else changes |
| AccountSearch.HandleSave | force-app/main/default/lwc/accountSearch/accountSearch.js:72-81 | `updatedIDs` is the drafts' Ids in draft order, of the same length; the caches are untouched |
| AccountSearch.RefreshKeys | force-app/main/default/lwc/accountSearch/accountSearch.js:109-114 | one entry per cache entry in map order: the key iff its Id list shares an Id with `updatedIDs`, `null` otherwise |
| AccountSearch.Resolve | force-app/main/default/lwc/accountSearch/accountSearch.js:109-122 | with the edited Ids known: one key and one handle per cached label, the label iff its Ids meet the edited ones, `undefined` for every `null` key, and in aligned caches the label's own stored handle otherwise |
| AccountSearch.Refresh | force-app/main/default/lwc/accountSearch/accountSearch.js:107-123 | reads the state and yields no new one, so `cacheMap`, `cacheRef` and `updatedIDs` stay as they were; after a save: one key entry and one handle per cached label, a handle exactly for the stale labels and it is that label's stored handle, `undefined` for every `null` key; before any save: a TypeError exactly when some cached list is non-empty |
| AccountSearch.Run | force-app/main/default/lwc/accountSearch/accountSearch.js:56-63 | any sequence of deliveries, picks and saves keeps the two caches aligned |
| CacheProperties.RefreshSelectsExactlyStaleKeys | force-app/main/default/lwc/accountSearch/accountSearch.js:107-123 | a label is among the refresh keys iff its cached Ids meet `updatedIDs`, and every such label's stored handle is refreshed |
| CacheProperties.EditedViewIsRefreshed | force-app/main/default/lwc/accountSearch/accountSearch.js:51-123 | a view fetched with data and then edited in one of its records is refreshed, and the handle passed at its own entry is its own wire result |
| CacheProperties.UnrelatedEditRefreshesNothing | force-app/main/default/lwc/accountSearch/accountSearch.js:72-123 | a save of records in no cached view yields only `null` keys and no real handle |
| CacheProperties.EmptyViewIsNeverRefreshed | force-app/main/default/lwc/accountSearch/accountSearch.js:56-114 | a view fetched with an empty record list is never among the refresh keys |
| CacheProperties.FetchOfNewLabelAppends | force-app/main/default/lwc/accountSearch/accountSearch.js:56-62 | fetching a label not yet cached appends one entry to the end of each cache |
| CacheProperties.RefetchReplaces | force-app/main/default/lwc/accountSearch/accountSearch.js:56-62 | a re-fetch with data replaces the earlier Id list and handle outright, in place |
| CacheProperties.FetchIsIdempotent | force-app/main/default/lwc/accountSearch/accountSearch.js:51-64 | delivering the same result twice equals delivering it once |
| CacheProperties.ReachableStatesAreAligned | force-app/main/default/lwc/accountSearch/accountSearch.js:28-33 | from the constructed component, every run keeps `cacheMap` and `cacheRef` on the same keys in the same order |
| CacheProperties.PickingOptionFiltersByItsType | force-app/main/default/lwc/accountSearch/accountSearch.js:36-70 | after the types arrive, picking option i filters by every type or by that option's type |
| CacheProperties.TwoViewsOneEdited | force-app/main/default/lwc/accountSearch/accountSearch.js:51-123 | with `Customer` = a, b and `Partner` = c, d cached, saving b gives keys `[Customer, null]` and handles `[Customer's, undefined]` |

## Left out

- The wire adapters `getAccTypes` and `getAccounts` and the reactive re-wiring on `selectedTypeLabel`: platform data binding; each delivery is an explicit transition taking the delivered result.
- `updateRecord`, `Promise.all` and the success/failure branches of `handleSave`: asynchronous platform calls; a successful save followed by `refresh` is a sequence the caller arranges, and a failed one simply never calls `refresh`.
- The internals of `refreshApex` and the `async` per-key loop: foreign and concurrent; the model records only which handle each entry passes. Only the wire of the currently selected label is known to deliver its refreshed data back to the component, as another `WiredAccounts` delivery filed under that label; the component shows no delivery for any other refreshed label, and the model does not invent one.
- Toast events, `dispatchEvent`, the `isLoading` toggles, `COLUMNS`, the message constants and the `error` field: user-interface plumbing with no behaviour to state.
- HandleTypeChange: the option value is always a string; an `undefined` or `null` event value, which the source also maps to `''`, is not modelled.
- Labels.PickingAnOptionSelectsItsType: holds only for type labels without `_`; the source promises nothing for those, and `UnderscoreLabelIsNotRecovered` shows they are selected under a different label.

=== FILE: account_search.dfy ===
/**
  The state and behaviour of the account search component: the per-filter
  cache of fetched record Ids (`cacheMap`), the per-filter wire results kept
  for in-place refresh (`cacheRef`), the Ids of the last saved drafts
  (`updatedIDs`), and the rule that picks which cached filters to refresh.
 */
module AccountSearch {
  import opened Optional
  import opened OrderedMap
  import Labels

  type RecordId = string

  /** A filter label: an account type, or `""` for every type. */
  type Label = string

  /** An account record as delivered by the account query; `Id` is its key. */
  datatype Account = Account(Id: RecordId, Name: string, Type: string)

  /**
    What the account wire delivers. `data` is `None` when the result carries
    no data (JavaScript falsy); an empty list is still data. The whole value
    doubles as the handle that the refresh call is given.
   */
  datatype AccountsResult = AccountsResult(data: Option<seq<Account>>, error: Option<string>)

  /** What the account-type wire delivers. */
  datatype TypesResult = TypesResult(data: Option<seq<string>>, error: Option<string>)

  /** One row edit of the grid: the record `Id` and the edited field values. */
  datatype Draft = Draft(Id: RecordId, fields: map<string, string>)

  datatype State = State(
    selectedTypeLabel: Label,
    typeOptions: Option<seq<Labels.TypeOption>>,
    accounts: Option<AccountsResult>,
    cacheMap: AssocList<Label, seq<RecordId>>,
    cacheRef: AssocList<Label, AccountsResult>,
    updatedIDs: Option<seq<RecordId>>)

  /** The component as constructed: empty label, empty maps, nothing saved yet. */
  function Init(): (s: State)
    ensures s.selectedTypeLabel == "" && s.typeOptions.None? && s.accounts.None? && s.updatedIDs.None?
    ensures |s.cacheMap| == 0 && |s.cacheRef| == 0
    ensures Inv(s)
  {
    State("", None, None, [], [], None)
  }

  /** Both caches hold the same keys in the same order, each key once. */
  predicate Inv(s: State)
  {
    && Wf(s.cacheMap)
    && Wf(s.cacheRef)
    && Keys(s.cacheMap) == Keys(s.cacheRef)
  }

  /** In aligned caches a label is in one map exactly when it is in the other. */
  lemma SameKeysAlignHas(s: State, k: Label)
    requires Inv(s)
    ensures Has(s.cacheMap, k) <==> Has(s.cacheRef, k)
  {
    SameKeysSameHas(s.cacheMap, s.cacheRef, k);
  }

  /** In aligned caches the handle stored at position `i` belongs to the label at position `i`. */
  lemma AlignedHandles(s: State)
    requires Inv(s)
    ensures forall i :: 0 <= i < |s.cacheMap| ==>
      i < |s.cacheRef| && Get(s.cacheRef, s.cacheMap[i].0) == Some(s.cacheRef[i].1)
  {
    forall i | 0 <= i < |s.cacheMap|
      ensures i < |s.cacheRef| && Get(s.cacheRef, s.cacheMap[i].0) == Some(s.cacheRef[i].1)
    {
      assert |Keys(s.cacheMap)| == |s.cacheMap|;
      assert Keys(s.cacheMap)[i] == s.cacheMap[i].0;
      assert Keys(s.cacheRef)[i] == s.cacheRef[i].0;
    }
  }

  /** `Id` of every account, in delivery order. */
  function AccountIds(accounts: seq<Account>): seq<RecordId>
  {
    seq(|accounts|, i requires 0 <= i < |accounts| => accounts[i].Id)
  }

  /** `Id` of every draft, in draft order. */
  function DraftIds(drafts: seq<Draft>): seq<RecordId>
  {
    seq(|drafts|, i requires 0 <= i < |drafts| => drafts[i].Id)
  }

  /**
    Delivery of the account types: with data, the picker gets the `All Types`
    option followed by one option per type; with only an error the picker is
    cleared; with neither nothing changes.
   */
  function AccTypes(s: State, result: TypesResult): (s': State)
    ensures result.data.Some? ==> s'.typeOptions == Some(Labels.BuildOptions(result.data.value))
    ensures result.data.None? && result.error.Some? ==> s'.typeOptions.None?
    ensures result.data.None? && result.error.None? ==> s' == s
    ensures s'.accounts == s.accounts
    ensures s'.cacheMap == s.cacheMap && s'.cacheRef == s.cacheRef
    ensures s'.selectedTypeLabel == s.selectedTypeLabel && s'.updatedIDs == s.updatedIDs
  {
    if result.data.Some? then s.(typeOptions := Some(Labels.BuildOptions(result.data.value)))
    else if result.error.Some? then s.(typeOptions := None)
    else s
  }

  /**
    Delivery of the accounts for the current filter label. The result always
    becomes the grid's data; when it carries data, the label's Id list and
    handle are set in both caches.
   */
  function WiredAccounts(s: State, result: AccountsResult): (s': State)
    ensures s'.accounts == Some(result)
    ensures s'.selectedTypeLabel == s.selectedTypeLabel
    ensures s'.typeOptions == s.typeOptions && s'.updatedIDs == s.updatedIDs
    ensures result.data.None? ==> s'.cacheMap == s.cacheMap && s'.cacheRef == s.cacheRef
    ensures |s'.cacheMap| >= |s.cacheMap|
    ensures result.data.Some? ==>
      var ids := Get(s'.cacheMap, s.selectedTypeLabel);
      && ids.Some?
      && |ids.value| == |result.data.value|
      && forall i :: 0 <= i < |ids.value| ==> ids.value[i] == result.data.value[i].Id
    ensures result.data.Some? ==> Get(s'.cacheRef, s.selectedTypeLabel) == Some(result)
    ensures result.data.Some? ==> forall k :: k != s.selectedTypeLabel ==>
      Get(s'.cacheMap, k) == Get(s.cacheMap, k) && Get(s'.cacheRef, k) == Get(s.cacheRef, k)
    ensures result.data.Some? ==> forall i :: 0 <= i < |s.cacheMap| && s.cacheMap[i].0 != s.selectedTypeLabel ==>
      s'.cacheMap[i] == s.cacheMap[i]
    ensures result.data.Some? && Has(s.cacheMap, s.selectedTypeLabel) ==> Keys(s'.cacheMap) == Keys(s.cacheMap)
    ensures result.data.Some? && !Has(s.cacheMap, s.selectedTypeLabel) ==>
      Keys(s'.cacheMap) == Keys(s.cacheMap) + [s.selectedTypeLabel]
    ensures Inv(s) ==> Inv(s')
  {
    var s1 := s.(accounts := Some(result));
    assert Inv(s) ==> (Has(s.cacheMap, s.selectedTypeLabel) <==> Has(s.cacheRef, s.selectedTypeLabel)) by {
      if Inv(s) {
        SameKeysAlignHas(s, s.selectedTypeLabel);
      }
    }
    if result.data.Some? then
      s1.(cacheMap := Set(s.cacheMap, s.selectedTypeLabel, AccountIds(result.data.value)),
          cacheRef := Set(s.cacheRef, s.selectedTypeLabel, result))
    else s1
  }

  /**
    A pick in the type picker: the new filter label is the option value
    decoded, every `_` read as a space, and `""` for an empty value.
   */
  function HandleTypeChange(s: State, value: string): (s': State)
    ensures s'.selectedTypeLabel == Labels.Decode(value)
    ensures value == "" ==> s'.selectedTypeLabel == ""
    ensures s'.cacheMap == s.cacheMap && s'.cacheRef == s.cacheRef && s'.updatedIDs == s.updatedIDs
    ensures s'.accounts == s.accounts && s'.typeOptions == s.typeOptions
  {
    s.(selectedTypeLabel := Labels.Decode(value))
  }

  /**
    A save of the grid's drafts: `updatedIDs` becomes the drafts' Ids in draft
    order. The snapshot is taken when the save starts, before any update is
    confirmed; the updates themselves happen outside the component.
   */
  function HandleSave(s: State, drafts: seq<Draft>): (s': State)
    ensures s'.updatedIDs.Some? && |s'.updatedIDs.value| == |drafts|
    ensures forall i :: 0 <= i < |drafts| ==> s'.updatedIDs.value[i] == drafts[i].Id
    ensures s'.cacheMap == s.cacheMap && s'.cacheRef == s.cacheRef
    ensures s'.selectedTypeLabel == s.selectedTypeLabel && s'.accounts == s.accounts
    ensures s'.typeOptions == s.typeOptions
  {
    s.(updatedIDs := Some(DraftIds(drafts)))
  }

  /** `ids.some(id => updated.includes(id))`. */
  predicate SomeIncluded(ids: seq<RecordId>, updated: seq<RecordId>)
  {
    exists id :: id in ids && id in updated
  }

  /**
    One entry per cached filter, in map order: the filter's label when one of
    its cached Ids is among `updated`, `None` (JavaScript `null`) otherwise.
   */
  function RefreshKeys(cache: AssocList<Label, seq<RecordId>>, updated: seq<RecordId>): (keys: seq<Option<Label>>)
    ensures |keys| == |cache|
    ensures forall i :: 0 <= i < |cache| ==> (keys[i].Some? <==> SomeIncluded(cache[i].1, updated))
    ensures forall i :: 0 <= i < |cache| && keys[i].Some? ==> keys[i].value == cache[i].0
  {
    if |cache| == 0 then []
    else
      [if SomeIncluded(cache[0].1, updated) then Some(cache[0].0) else None]
        + RefreshKeys(cache[1..], updated)
  }

  /** What the refresh call is given for each entry: `cacheRef.get(key)`, and `undefined` for `null`. */
  function RefreshedHandles(keys: seq<Option<Label>>, ref: AssocList<Label, AccountsResult>): seq<Option<AccountsResult>>
  {
    seq(|keys|, i requires 0 <= i < |keys| =>
      match keys[i]
      case Some(k) => Get(ref, k)
      case None => None)
  }

  /**
    Outcome of a refresh: the keys it computed and the handle passed to the
    refresh call per key, or the TypeError raised when `updatedIDs` is still
    `undefined` and some cached Id list is non-empty.
   */
  datatype RefreshOutcome =
    | Refreshing(refreshKeys: seq<Option<Label>>, refreshed: seq<Option<AccountsResult>>)
    | ThrewTypeError

  /**
    The two passes of a refresh once `updated` is known: the keys, then the
    handle given to the refresh call for each key.
   */
  function Resolve(s: State, updated: seq<RecordId>): (r: RefreshOutcome)
    ensures r.Refreshing?
    ensures |r.refreshKeys| == |s.cacheMap| && |r.refreshed| == |s.cacheMap|
    ensures forall i :: 0 <= i < |s.cacheMap| ==>
      (r.refreshKeys[i].Some? <==> SomeIncluded(s.cacheMap[i].1, updated))
    ensures forall i :: 0 <= i < |s.cacheMap| && r.refreshKeys[i].Some? ==>
      r.refreshKeys[i].value == s.cacheMap[i].0
    ensures forall i :: 0 <= i < |s.cacheMap| && r.refreshKeys[i].None? ==> r.refreshed[i].None?
    ensures Inv(s) ==> forall i :: 0 <= i < |s.cacheMap| && r.refreshKeys[i].Some? ==>
      r.refreshed[i] == Some(s.cacheRef[i].1)
  {
    var keys := RefreshKeys(s.cacheMap, updated);
    assert Inv(s) ==> forall i :: 0 <= i < |s.cacheMap| ==>
      i < |s.cacheRef| && Get(s.cacheRef, s.cacheMap[i].0) == Some(s.cacheRef[i].1) by {
      if Inv(s) {
        AlignedHandles(s);
      }
    }
    Refreshing(keys, RefreshedHandles(keys, s.cacheRef))
  }

  /**
    The invalidation resolver. It reads the state and changes none of it; the
    wire of the selected label delivers its refreshed result through
    `WiredAccounts`, which files it under the selected label; for other
    refreshed labels no delivery to the component is modelled.
   */
  function Refresh(s: State): (r: RefreshOutcome)
    ensures s.updatedIDs.Some? ==> r.Refreshing?
    ensures s.updatedIDs.None? ==>
      (r.ThrewTypeError? <==> exists i :: 0 <= i < |s.cacheMap| && |s.cacheMap[i].1| > 0)
    ensures r.Refreshing? ==> |r.refreshKeys| == |s.cacheMap| && |r.refreshed| == |s.cacheMap|
    ensures r.Refreshing? ==> forall i :: 0 <= i < |s.cacheMap| ==>
      (r.refreshKeys[i].Some? <==> s.updatedIDs.Some? && SomeIncluded(s.cacheMap[i].1, s.updatedIDs.value))
    ensures r.Refreshing? ==> forall i :: 0 <= i < |s.cacheMap| && r.refreshKeys[i].Some? ==>
      r.refreshKeys[i].value == s.cacheMap[i].0
    ensures r.Refreshing? ==> forall i :: 0 <= i < |s.cacheMap| && r.refreshKeys[i].None? ==>
      r.refreshed[i].None?
    ensures r.Refreshing? && Inv(s) ==> forall i :: 0 <= i < |s.cacheMap| && r.refreshKeys[i].Some? ==>
      r.refreshed[i] == Some(s.cacheRef[i].1)
  {
    match s.updatedIDs
    case Some(updated) => Resolve(s, updated)
    case None =>
      if exists i :: 0 <= i < |s.cacheMap| && |s.cacheMap[i].1| > 0 then ThrewTypeError
      else Resolve(s, [])
  }

  /** Everything that can happen to the component, in the order it happens. */
  datatype Event =
    | TypesDelivered(types: TypesResult)
    | AccountsDelivered(accounts: AccountsResult)
    | TypeChanged(value: string)
    | Saved(drafts: seq<Draft>)

  function Step(s: State, e: Event): State
  {
    match e
    case TypesDelivered(t) => AccTypes(s, t)
    case AccountsDelivered(a) => WiredAccounts(s, a)
    case TypeChanged(v) => HandleTypeChange(s, v)
    case Saved(d) => HandleSave(s, d)
  }

  /** The state after `events`, applied one at a time from `s`; the caches stay aligned throughout. */
  function Run(s: State, events: seq<Event>): (s': State)
    ensures Inv(s) ==> Inv(s')
    decreases |events|
  {
    if |events| == 0 then s else Run(Step(s, events[0]), events[1..])
  }
}

=== FILE: cache_properties.dfy ===
/**
  Properties that relate several operations of the account search component:
  what a refresh selects after fetches and saves, how re-fetching replaces a
  cached view, and that the two caches stay aligned over any run.
 */
module CacheProperties {
  import opened Optional
  import opened OrderedMap
  import Labels
  import opened AccountSearch

  /** The cached views a save of `updated` makes stale: some cached Id was edited. */
  predicate Stale(s: State, k: Label, updated: seq<RecordId>)
  {
    match Get(s.cacheMap, k)
    case Some(ids) => SomeIncluded(ids, updated)
    case None => false
  }

  /**
    After a save, the refresh names exactly the stale cached labels, and the
    handles it passes are exactly those stored for the stale labels.
   */
  lemma RefreshSelectsExactlyStaleKeys(s: State)
    requires Inv(s) && s.updatedIDs.Some?
    ensures Refresh(s).Refreshing?
    ensures forall k :: Some(k) in Refresh(s).refreshKeys <==> Stale(s, k, s.updatedIDs.value)
    ensures forall k :: Stale(s, k, s.updatedIDs.value) ==> Get(s.cacheRef, k).Some? && Get(s.cacheRef, k) in Refresh(s).refreshed
  {
    var r := Refresh(s);
    var u := s.updatedIDs.value;
    forall k
      ensures Some(k) in r.refreshKeys <==> Stale(s, k, u)
      ensures Stale(s, k, u) ==> Get(s.cacheRef, k).Some? && Get(s.cacheRef, k) in r.refreshed
    {
      if Some(k) in r.refreshKeys {
        var i :| 0 <= i < |r.refreshKeys| && r.refreshKeys[i] == Some(k);
        assert Get(s.cacheMap, k) == Some(s.cacheMap[i].1);
      }
      if Stale(s, k, u) {
        var i :| 0 <= i < |s.cacheMap| && s.cacheMap[i].0 == k;
        assert Get(s.cacheMap, k) == Some(s.cacheMap[i].1);
        assert r.refreshKeys[i] == Some(k);
        AlignedHandles(s);
        assert r.refreshed[i] == Get(s.cacheRef, k);
      }
    }
  }

  /**
    A view fetched with data and then edited in one of its records is among
    the refreshed views, and the handle passed at its entry is its own wire result.
   */
  lemma EditedViewIsRefreshed(s: State, result: AccountsResult, drafts: seq<Draft>, d: nat, a: nat)
    requires Inv(s) && result.data.Some?
    requires d < |drafts| && a < |result.data.value| && drafts[d].Id == result.data.value[a].Id
    ensures var r := Refresh(HandleSave(WiredAccounts(s, result), drafts));
      && r.Refreshing?
      && exists i :: 0 <= i < |r.refreshKeys| && r.refreshKeys[i] == Some(s.selectedTypeLabel) && r.refreshed[i] == Some(result)
  {
    var s1 := WiredAccounts(s, result);
    var s2 := HandleSave(s1, drafts);
    var ids := Get(s1.cacheMap, s.selectedTypeLabel).value;
    assert ids[a] in ids && ids[a] in s2.updatedIDs.value;
    assert Stale(s2, s.selectedTypeLabel, s2.updatedIDs.value);
    RefreshSelectsExactlyStaleKeys(s2);
    var r := Refresh(s2);
    var i :| 0 <= i < |r.refreshKeys| && r.refreshKeys[i] == Some(s.selectedTypeLabel);
    assert r.refreshed[i] == Some(s2.cacheRef[i].1);
    AlignedHandles(s2);
    assert Get(s2.cacheRef, s.selectedTypeLabel) == Some(result);
  }

  /** A save whose drafts belong to no cached view refreshes nothing. */
  lemma UnrelatedEditRefreshesNothing(s: State, drafts: seq<Draft>)
    requires forall i, d :: 0 <= i < |s.cacheMap| && 0 <= d < |drafts| ==> drafts[d].Id !in s.cacheMap[i].1
    ensures var r := Refresh(HandleSave(s, drafts));
      && r.Refreshing?
      && (forall i :: 0 <= i < |r.refreshKeys| ==> r.refreshKeys[i].None?)
      && (forall i :: 0 <= i < |r.refreshed| ==> r.refreshed[i].None?)
  {
  }

  /** A fetch with data under a label not yet cached appends one entry at the end of each cache. */
  lemma FetchOfNewLabelAppends(s: State, result: AccountsResult)
    requires result.data.Some?
    requires !Has(s.cacheMap, s.selectedTypeLabel) && !Has(s.cacheRef, s.selectedTypeLabel)
    ensures WiredAccounts(s, result).cacheMap == s.cacheMap + [(s.selectedTypeLabel, AccountIds(result.data.value))]
    ensures WiredAccounts(s, result).cacheRef == s.cacheRef + [(s.selectedTypeLabel, result)]
  {
    assert IndexOf(s.cacheMap, s.selectedTypeLabel).None?;
    assert IndexOf(s.cacheRef, s.selectedTypeLabel).None?;
  }

  /** Picking either scenario label selects that label unchanged. */
  lemma SelectingPlainLabels(s: State, value: string)
    requires value == "Customer" || value == "Partner"
    ensures HandleTypeChange(s, value).selectedTypeLabel == value
  {
    assert Labels.Underscore !in value;
    Labels.DecodeWithoutUnderscore(value);
  }

  /** First step of the two-view scenario: `Customer` fetched into empty caches. */
  lemma CustomerCached(s: State, h1: AccountsResult)
    requires s.selectedTypeLabel == "Customer" && s.cacheMap == [] && s.cacheRef == []
    requires h1.data == Some([Account("a", "A", "Customer"), Account("b", "B", "Customer")])
    ensures WiredAccounts(s, h1).cacheMap == [("Customer", ["a", "b"])]
    ensures WiredAccounts(s, h1).cacheRef == [("Customer", h1)]
  {
    FetchOfNewLabelAppends(s, h1);
    assert AccountIds(h1.data.value) == ["a", "b"];
  }

  /** Second step of the two-view scenario: `Partner` fetched after `Customer`. */
  lemma PartnerCached(s: State, h1: AccountsResult, h2: AccountsResult)
    requires s.selectedTypeLabel == "Partner"
    requires s.cacheMap == [("Customer", ["a", "b"])] && s.cacheRef == [("Customer", h1)]
    requires h2.data == Some([Account("c", "C", "Partner"), Account("d", "D", "Partner")])
    ensures WiredAccounts(s, h2).cacheMap == [("Customer", ["a", "b"]), ("Partner", ["c", "d"])]
    ensures WiredAccounts(s, h2).cacheRef == [("Customer", h1), ("Partner", h2)]
  {
    assert "Customer" != "Partner";
    assert !Has(s.cacheMap, "Partner");
    assert !Has(s.cacheRef, "Partner");
    FetchOfNewLabelAppends(s, h2);
    assert AccountIds(h2.data.value) == ["c", "d"];
  }

  /** A save of a single draft records exactly that draft's Id. */
  lemma SaveOfOneDraft(s: State, d: Draft)
    ensures HandleSave(s, [d]).updatedIDs == Some([d.Id])
  {
    assert DraftIds([d]) == [d.Id];
  }

  /** Last step of the two-view scenario: the refresh after saving an edit of b. */
  lemma RefreshOfTwoViews(s: State, h1: AccountsResult, h2: AccountsResult)
    requires s.cacheMap == [("Customer", ["a", "b"]), ("Partner", ["c", "d"])]
    requires s.cacheRef == [("Customer", h1), ("Partner", h2)]
    requires s.updatedIDs == Some(["b"])
    ensures Refresh(s) == Refreshing([Some("Customer"), None], [Some(h1), None])
  {
    assert "b" in ["a", "b"] && "b" in ["b"];
    assert SomeIncluded(["a", "b"], ["b"]);
    assert !SomeIncluded(["c", "d"], ["b"]);
    var keys := RefreshKeys(s.cacheMap, ["b"]);
    assert keys == [Some("Customer"), None];
    assert Get(s.cacheRef, "Customer") == Some(h1);
    assert RefreshedHandles(keys, s.cacheRef) == [Some(h1), None];
  }

  /**
    Two cached views, `Customer` with records a and b and `Partner` with c and
    d; saving an edit of b refreshes `Customer` only, and `Partner` keeps its
    `null` entry, for which the refresh call is given no handle.
   */
  lemma TwoViewsOneEdited(h1: AccountsResult, h2: AccountsResult, edit: Draft)
    requires edit.Id == "b"
    requires h1.data == Some([Account("a", "A", "Customer"), Account("b", "B", "Customer")])
    requires h2.data == Some([Account("c", "C", "Partner"), Account("d", "D", "Partner")])
    ensures var s1 := WiredAccounts(HandleTypeChange(Init(), "Customer"), h1);
      var s2 := WiredAccounts(HandleTypeChange(s1, "Partner"), h2);
      Refresh(HandleSave(s2, [edit])) == Refreshing([Some("Customer"), None], [Some(h1), None])
  {
    var t0 := HandleTypeChange(Init(), "Customer");
    SelectingPlainLabels(Init(), "Customer");
    CustomerCached(t0, h1);
    var s1 := WiredAccounts(t0, h1);
    var t1 := HandleTypeChange(s1, "Partner");
    SelectingPlainLabels(s1, "Partner");
    PartnerCached(t1, h1, h2);
    var s2 := WiredAccounts(t1, h2);
    var s3 := HandleSave(s2, [edit]);
    SaveOfOneDraft(s2, edit);
    RefreshOfTwoViews(s3, h1, h2);
  }

  /** A view fetched with no records is never refreshed, whatever is saved. */
  lemma EmptyViewIsNeverRefreshed(s: State, result: AccountsResult, drafts: seq<Draft>)
    requires Inv(s) && result.data == Some([])
    ensures var r := Refresh(HandleSave(WiredAccounts(s, result), drafts));
      r.Refreshing? && Some(s.selectedTypeLabel) !in r.refreshKeys
  {
    var s2 := HandleSave(WiredAccounts(s, result), drafts);
    assert Get(s2.cacheMap, s.selectedTypeLabel) == Some([]);
    assert !Stale(s2, s.selectedTypeLabel, s2.updatedIDs.value);
    RefreshSelectsExactlyStaleKeys(s2);
  }

  /**
    A fetch with data under the same label replaces whatever an earlier fetch
    stored: no Id of the earlier result is merged in, and the entry keeps its
    place in both caches.
   */
  lemma RefetchReplaces(s: State, first: AccountsResult, second: AccountsResult)
    requires second.data.Some?
    ensures WiredAccounts(WiredAccounts(s, first), second) == WiredAccounts(s, second)
  {
    if first.data.Some? {
      var k := s.selectedTypeLabel;
      SetOverwrites(s.cacheMap, k, AccountIds(first.data.value), AccountIds(second.data.value));
      SetOverwrites(s.cacheRef, k, first, second);
    }
  }

  /** Delivering the same result twice is the same as delivering it once. */
  lemma FetchIsIdempotent(s: State, result: AccountsResult)
    ensures WiredAccounts(WiredAccounts(s, result), result) == WiredAccounts(s, result)
  {
    if result.data.Some? {
      RefetchReplaces(s, result, result);
    }
  }

  /** Every state reachable from the constructed component has aligned caches. */
  lemma ReachableStatesAreAligned(events: seq<Event>)
    ensures Inv(Run(Init(), events))
  {
    assert Inv(Init());
  }

  /**
    Once the types are delivered, picking option `i` of the picker filters by
    every type for the leading option and by that option's type otherwise,
    provided no type label contains `_`.
   */
  lemma PickingOptionFiltersByItsType(s: State, types: TypesResult, i: nat)
    requires types.data.Some? && i <= |types.data.value|
    requires forall t :: t in types.data.value ==> Labels.Underscore !in t
    ensures var s1 := AccTypes(s, types);
      && s1.typeOptions.Some? && i < |s1.typeOptions.value|
      && HandleTypeChange(s1, s1.typeOptions.value[i].value).selectedTypeLabel
         == (if i == 0 then "" else types.data.value[i - 1])
  {
    Labels.PickingAnOptionSelectsItsType(types.data.value, i);
  }
}

=== FILE: labels.dfy ===
/**
  The account-type label encoding of the type picker. An option's value is its
  label with every space turned into `_`; choosing an option turns every `_`
  of the value back into a space and uses the result as the filter label.
 */
module Labels {

  const Space: char := ' '
  const Underscore: char := '_'

  /** Label and value of the leading option that selects every type. */
  const AllTypesLabel: string := "All Types"
  const AllTypesValue: string := ""

  /** One entry of the type picker; `text` is the option's `label` property. */
  datatype TypeOption = TypeOption(text: string, value: string)

  /** `s.replace(/x/g, y)` for a single-character pattern `x`. */
  function ReplaceAll(s: string, x: char, y: char): (r: string)
    ensures |r| == |s|
    ensures forall i :: 0 <= i < |s| ==> r[i] == (if s[i] == x then y else s[i])
  {
    if |s| == 0 then ""
    else [if s[0] == x then y else s[0]] + ReplaceAll(s[1..], x, y)
  }

  /** Option value of a type label: spaces become underscores. */
  function Encode(typeLabel: string): (value: string)
    ensures |value| == |typeLabel|
    ensures Space !in value
    ensures forall i :: 0 <= i < |typeLabel| && typeLabel[i] != Space ==> value[i] == typeLabel[i]
    ensures forall i :: 0 <= i < |typeLabel| && typeLabel[i] == Space ==> value[i] == Underscore
  {
    ReplaceAll(typeLabel, Space, Underscore)
  }

  /**
    Filter label of a picked option value: underscores become spaces, and an
    empty (falsy) value selects the empty label, that is every type.
   */
  function Decode(value: string): (typeLabel: string)
    ensures value == AllTypesValue ==> typeLabel == ""
    ensures |typeLabel| == |value|
    ensures Underscore !in typeLabel
    ensures forall i :: 0 <= i < |value| && value[i] != Underscore ==> typeLabel[i] == value[i]
    ensures forall i :: 0 <= i < |value| && value[i] == Underscore ==> typeLabel[i] == Space
  {
    if value == "" then "" else ReplaceAll(value, Underscore, Space)
  }

  /** A label without underscores survives the trip through its option value. */
  lemma DecodeEncode(typeLabel: string)
    requires Underscore !in typeLabel
    ensures Decode(Encode(typeLabel)) == typeLabel
  {
    var r := Decode(Encode(typeLabel));
    assert |r| == |typeLabel|;
    forall i | 0 <= i < |typeLabel|
      ensures r[i] == typeLabel[i]
    {
      if typeLabel[i] == Space {
        assert Encode(typeLabel)[i] == Underscore;
      }
    }
  }

  /** A value without underscores is its own label. */
  lemma DecodeWithoutUnderscore(value: string)
    requires Underscore !in value
    ensures Decode(value) == value
  {
    var r := Decode(value);
    assert |r| == |value|;
    forall i | 0 <= i < |value|
      ensures r[i] == value[i]
    {
      assert value[i] != Underscore;
    }
  }

  /** A value without spaces is reproduced by encoding its decoded label. */
  lemma EncodeDecode(value: string)
    requires Space !in value
    ensures Encode(Decode(value)) == value
  {
    var r := Encode(Decode(value));
    assert |r| == |value|;
    forall i | 0 <= i < |value|
      ensures r[i] == value[i]
    {
      if value[i] == Underscore {
        assert Decode(value)[i] == Space;
      }
    }
  }

  /** The encoding is lossy: a label that contains `_` comes back with a space. */
  lemma UnderscoreLabelIsNotRecovered()
    ensures Encode("A_B") == Encode("A B")
    ensures Decode(Encode("A_B")) == "A B" != "A_B"
  {
    var e := Encode("A_B");
    assert e[0] == 'A' && e[1] == '_' && e[2] == 'B';
    assert e == "A_B";
    var f := Encode("A B");
    assert f[0] == 'A' && f[1] == '_' && f[2] == 'B';
    assert f == "A_B";
    var d := Decode("A_B");
    assert d[0] == 'A' && d[1] == ' ' && d[2] == 'B';
  }

  /**
    The picker's option list: the `All Types` option first, then one option
    per type label in the order the types were delivered.
   */
  function BuildOptions(types: seq<string>): (options: seq<TypeOption>)
    ensures |options| == |types| + 1
    ensures options[0] == TypeOption(AllTypesLabel, AllTypesValue)
    ensures forall i :: 0 <= i < |types| ==> options[i + 1].text == types[i]
    ensures forall i :: 0 <= i < |types| ==> options[i + 1].value == Encode(types[i])
  {
    [TypeOption(AllTypesLabel, AllTypesValue)]
      + seq(|types|, i requires 0 <= i < |types| => TypeOption(types[i], Encode(types[i])))
  }

  /**
    Picking option `i` selects every type for the leading option and the
    option's own type label otherwise, provided no type label has an underscore.
   */
  lemma PickingAnOptionSelectsItsType(types: seq<string>, i: nat)
    requires forall t :: t in types ==> Underscore !in t
    requires i < |types| + 1
    ensures Decode(BuildOptions(types)[i].value) == (if i == 0 then "" else types[i - 1])
  {
    var options := BuildOptions(types);
    if i > 0 {
      assert options[i].value == Encode(types[i - 1]);
      DecodeEncode(types[i - 1]);
    }
  }
}

=== FILE: optional.dfy ===
/** The value-or-nothing wrapper used for JavaScript `undefined` and `null`. */
module Optional {

  datatype Option<+T> = None | Some(value: T)

}

=== FILE: ordered_map.dfy ===
/**
  A JavaScript `Map` as an association list: entries are kept in insertion
  order, `set` on a present key replaces the value where it stands, and `set`
  on a new key appends the entry at the end.
 */
module OrderedMap {
  import opened Optional

  type AssocList<K, V> = seq<(K, V)>

  /** The keys in iteration order (the order `Map.prototype.forEach` visits). */
  function Keys<K, V>(m: AssocList<K, V>): seq<K>
  {
    seq(|m|, i requires 0 <= i < |m| => m[i].0)
  }

  /** `Map.prototype.has`. */
  predicate Has<K(==), V>(m: AssocList<K, V>, k: K)
  {
    exists i :: 0 <= i < |m| && m[i].0 == k
  }

  /** No key occurs twice, as in every JavaScript `Map`. */
  predicate Wf<K(==), V>(m: AssocList<K, V>)
  {
    forall i, j :: 0 <= i < j < |m| ==> m[i].0 != m[j].0
  }

  /** Position of the entry holding `k`, if any. */
  function IndexOf<K(==), V>(m: AssocList<K, V>, k: K): (r: Option<nat>)
    ensures r.Some? ==> r.value < |m| && m[r.value].0 == k
    ensures r.Some? ==> forall j :: 0 <= j < r.value ==> m[j].0 != k
    ensures r.None? ==> forall j :: 0 <= j < |m| ==> m[j].0 != k
  {
    if |m| == 0 then None
    else if m[0].0 == k then Some(0)
    else
      match IndexOf(m[1..], k)
      case Some(i) => Some(i + 1)
      case None => None
  }

  /** `Map.prototype.get`: the value stored under `k`, `None` for `undefined`. */
  function Get<K(==), V>(m: AssocList<K, V>, k: K): (r: Option<V>)
    ensures r.Some? <==> Has(m, k)
    ensures Wf(m) ==> forall i :: 0 <= i < |m| && m[i].0 == k ==> r == Some(m[i].1)
  {
    match IndexOf(m, k)
    case Some(i) => Some(m[i].1)
    case None => None
  }

  /** `Map.prototype.set`: replace in place when `k` is present, append otherwise. */
  function Set<K(==,!new), V>(m: AssocList<K, V>, k: K, v: V): (r: AssocList<K, V>)
    ensures |r| == if Has(m, k) then |m| else |m| + 1
    ensures Has(m, k) ==> Keys(r) == Keys(m)
    ensures !Has(m, k) ==> Keys(r) == Keys(m) + [k]
    ensures forall i :: 0 <= i < |m| && m[i].0 != k ==> r[i] == m[i]
    ensures Get(r, k) == Some(v)
    ensures forall k' :: k' != k ==> Get(r, k') == Get(m, k')
    ensures Wf(m) ==> Wf(r)
  {
    match IndexOf(m, k)
    case Some(i) =>
      var r := m[i := (k, v)];
      assert r[i] == (k, v);
      assert IndexOf(r, k) == Some(i);
      r
    case None =>
      var r := m + [(k, v)];
      assert r[|m|] == (k, v);
      assert IndexOf(r, k) == Some(|m|);
      r
  }

  /** Two lists with the same key sequence hold the same keys. */
  lemma SameKeysSameHas<K, V, W>(m: AssocList<K, V>, n: AssocList<K, W>, k: K)
    requires Keys(m) == Keys(n)
    ensures Has(m, k) <==> Has(n, k)
  {
    if Has(m, k) {
      var i :| 0 <= i < |m| && m[i].0 == k;
      assert Keys(m)[i] == k;
    }
    if Has(n, k) {
      var i :| 0 <= i < |n| && n[i].0 == k;
      assert Keys(n)[i] == k;
    }
  }

  /** A second `set` under the same key leaves no trace of the first. */
  lemma SetOverwrites<K(!new), V>(m: AssocList<K, V>, k: K, v1: V, v2: V)
    ensures Set(Set(m, k, v1), k, v2) == Set(m, k, v2)
  {
    var m1 := Set(m, k, v1);
    match IndexOf(m, k)
    case Some(i) =>
      assert m1 == m[i := (k, v1)];
      assert m1[i].0 == k;
      assert IndexOf(m1, k) == Some(i);
    case None =>
      assert IndexOf(m1, k) == Some(|m|);
  }
}
